=== FILE: README.md ===
# line-monsters tile editor core, modelled in Dafny

This project models three sequential pieces of the line-monsters tile-map editor. All three run without the GPU, the window or the file system.

- **Spritebatch** (`batching.dfy`, module `Batching`). The accumulator collects triangle geometry and groups it into batches by texture.
  - Pushed indices are rebased by the pending vertex count. Dafny proves that the u16 rebasing never overflows.
  - The open batch is flushed into the finished buffers whenever the texture id changes.
  - `get_buffer` drains everything.
  - The main result compares the state machine with an independent reference grouping, `Group`. Draining after any sequence of pushes from a fresh Spritebatch returns exactly `Group(ops)`. That is one batch per maximal run of same-id pushes, in submission order. Neighbouring batches have different ids.
- **Tile editing and geometry** (`tiles.dfy`, `chunks.dfy`, `editor.dfy`).
  - The cyclic `Model` and `TileRotation` enums, and the exact quarter-turn vertex rotation.
  - The chunk coordinate split for world coordinates of either sign.
  - Chunk lookup and the tile write through it.
  - The per-tick edit state machine and the per-tile geometry generation.
  - The two texture passes over each chunk.
- **Geometry tables** (`models.dfy`). These are the wall, corner and floor vertex/index tables, offset by the origin (0.5, 0.5, 0.5). Every index is in bounds and every index count is a multiple of 3.

`wrappers.dfy` holds `Option` and `Result`. `geometry.dfy` holds the `Vertex`/`Mesh` types and the u16/u32 bounds.

Modelling choices:
- Integer widths are explicit. A height is a `U8` (0..255) and an index a `U16`. The `as u32` cast of the index count is written as `% 2^32`.
- A fatal `assert!` of `draw` becomes `Err(Fault)`. `Draw` and `Push` return `Err` exactly when the assertion would fire.
- Positions are `real`. The source's f32 arithmetic agrees with them exactly while |x|, |y| < 2^21: the tables are dyadic with at most three fractional bits (the corner's ±0.125 and ±0.375), rotation only swaps and negates coordinates, and translations add integers and 0.25. Beyond that bound f32 rounds and the model does not.
- `push_verts`, which the tick calls at `game/mod.rs:435,461`, is defined in `renderer/spritebatch.rs` (declared by `renderer.rs:1`), which this model does not cover. `Push` assumes the rule of `draw`: the two capacity assertions, the texture switch, then append and rebase. `Draw` is `Push` applied to the quad.
- The inner-corner table (`models::inner_corner`) is not part of this model. The tick takes it as a parameter, required to be a well-formed triangle list.
- The Scene's Spritebatch is drained by `get_buffer` at the end of every tick. `GetBuffer` proves that this leaves a fresh Spritebatch, so `Tick` starts each geometry phase from `New()`.
- Textures are records `{id, width, height}`. GPU buffers are the sequences they are built from.
- The two texture passes run inside the per-chunk loop (`game/mod.rs:406-463`): one chunk's grass pass, then its wall pass, then the next chunk. They are not two passes over the whole map, so a tick can switch texture up to twice per chunk. `FrameRunBound` and `Tick` state this bound.

A note on capacity: consecutive chunks share a batch when a pass is empty. For example, a chunk with no non-Floor tiles adds nothing to the wall pass. So a batch can span chunks, and the 16-bit index range can overflow. `Tick` fails exactly when pushing the tick's geometry fails. `PushAllFits` gives a sufficient condition for success, and `PushAllOverflowsRun` a sufficient condition for a fault. Applied to flat floor maps, `FloorMapTick` shows that a tick that does not swap a model succeeds iff the map has at most 15 chunks: each chunk adds 4096 vertices to a single grass batch. A swap can turn the selected tile into a Corner, whose wall-pass push splits the grass run, so the bound is not claimed for such a tick.

## Model

| member | source | states |
|---|---|---|
| Models.Offset | line-monsters/src/models.rs:1-5 | adding the origin back to an offset point gives the original unit-cube point |
| Models.OffsetCentresUnitCube | line-monsters/src/models.rs:15 | with ORIGIN (0.5, 0.5, 0.5), a point is in the centred cube iff its unit-cube coordinates are in [0, 1] |
| Models.WallTable | line-monsters/src/models.rs:18-40 | the wall has 8 vertices and 18 indices, all below 8, in whole triangles, inside [-0.5, 0.5]^3 |
| Models.CornerTable | line-monsters/src/models.rs:49-99 | the corner has 11 vertices and 33 indices, all below 11, in whole triangles, inside [-0.5, 0.5]^3 |
| Models.FloorTable | line-monsters/src/models.rs:108-119 | the floor has 4 vertices and 6 indices, all below 4, in whole triangles, every vertex at y = -0.5 |
| Tiles.GetModel | line-monsters/src/game/mod.rs:18-28 | every model's table is a well-formed triangle list; the wall, corner and floor tables lie in the unit cube |
| Tiles.SwapModel | line-monsters/src/game/mod.rs:30-37 | swapping moves a model one step along the ring Wall, Floor, Corner, InnerCorner, wrapping after four |
| Tiles.RotateNext | line-monsters/src/game/mod.rs:64-71 | rotating adds one quarter turn, modulo a full turn |
| Tiles.RotateVertexIsTurns | line-monsters/src/game/mod.rs:50-62 | a rotation maps a vertex to exactly its number of quarter turns (x, y, z) -> (z, y, -x) |
| Tiles.SwapModelCycle | line-monsters/src/game/mod.rs:30-37 | swapping four times is the identity and the orbit of any model is all four models |
| Tiles.RotateNextCycle | line-monsters/src/game/mod.rs:64-71 | rotating four times is the identity and the orbit of any rotation is all four rotations |
| Tiles.RotateVertex | line-monsters/src/game/mod.rs:50-62 | rotation keeps y and the texture coordinates, and keeps a vertex inside the unit cube |
| Tiles.QuarterTurnOrderFour | line-monsters/src/game/mod.rs:51-54 | four quarter turns (x, y, z) -> (z, y, -x) return the original vertex |
| Tiles.RotateNextTurnsQuarter | line-monsters/src/game/mod.rs:56-70 | the successor rotation maps a vertex to one more quarter turn of the current rotation's image |
| Tiles.RotationsDistinct | line-monsters/src/game/mod.rs:56-61 | two rotations send (1, 0, 0) to the same place iff they are the same rotation |
| Chunks.NewChunk | line-monsters/src/game/mod.rs:122-129 | a new chunk has the given coordinates and 1024 flat height-0 Floor tiles with rotation Zero |
| Chunks.TruncRem | line-monsters/src/game/mod.rs:293-300 | Rust's signed `%`: a = b * (a / b rounded toward zero) + remainder; the remainder lies in [0, b) for a non-negative dividend and in (-b, 0] for a negative one |
| Chunks.LocalOffsetIsFloorMod | line-monsters/src/game/mod.rs:292-301 | the offset `31 - abs((v+1) % 32)` used for negative v equals the floor modulus v mod 32 |
| Chunks.XyToChunkCoord | line-monsters/src/game/mod.rs:287-306 | both offsets lie in [0, 32) and chunk * 32 + offset reconstructs each world coordinate |
| Chunks.ChunkCoordUnique | line-monsters/src/game/mod.rs:287-306 | any chunk/offset pair with offsets in [0, 32) that reconstructs (x, y) is the one returned |
| Chunks.FindChunk | line-monsters/src/game/mod.rs:311-315 | returns the first chunk with the coordinates; None iff no chunk has them |
| Chunks.GetTile | line-monsters/src/game/mod.rs:308-318 | finds a tile iff some chunk has the coordinate's chunk coordinates; no chunk is created |
| Chunks.SetTile | line-monsters/src/game/mod.rs:308-318 | a write through get_tile keeps the map's length and every chunk's coordinates; a lookup miss writes nothing |
| Chunks.SetTileElsewhere | line-monsters/src/game/mod.rs:308-318 | after a write, every other world coordinate reads as before |
| Chunks.SetTileFrame | line-monsters/src/game/mod.rs:308-318 | a write through get_tile changes only the addressed slot of the first covering chunk; a miss changes nothing |
| Chunks.GetAfterSet | line-monsters/src/game/mod.rs:308-318 | reading back at the written coordinate gives the written tile, or None on a miss |
| Chunks.GetAfterSetOther | line-monsters/src/game/mod.rs:308-318 | a write leaves the tile at every other world coordinate unchanged |
| Chunks.SetTwice | line-monsters/src/game/mod.rs:308-318 | two writes at one coordinate equal the second write alone |
| Chunks.EnumerationAddressing | line-monsters/src/game/mod.rs:423-429 | slot n of chunk (cx, cy), drawn at (n%32 + 32cx, n/32 + 32cy), splits back to (cx, cy, n%32, n/32) and slot n |
| Chunks.DrawnTileIsEditedTile | line-monsters/src/game/mod.rs:448-454 | the tile drawn for slot n of a chunk is the tile get_tile reaches at that world coordinate, unless an earlier chunk shadows it |
| Batching.New | line-monsters/src/spritebatch.rs:20-31 | a new Spritebatch satisfies the invariant, with no texture open and no finished batch |
| Batching.Rebase | line-monsters/src/spritebatch.rs:74-82 | indices of a mesh with n vertices, rebased by the pending count b with b + n within u16, address exactly the new vertices: each lies in [b, b + n) |
| Batching.Flush | line-monsters/src/spritebatch.rs:89-122 | no-op with nothing open; otherwise appends (texture, vertices, indices, count = index count), clears the pending lists, opens the argument, and keeps the invariant |
| Batching.SwitchTexture | line-monsters/src/spritebatch.rs:37-43 | opens the texture when nothing is open, keeps a same-id batch and its handle, and flushes into the new texture on an id change |
| Batching.Push | line-monsters/src/spritebatch.rs:33-86 | faults iff the vertex or index capacity would be exceeded; otherwise appends the vertices and the indices rebased by the post-switch vertex count, keeping the invariant |
| Batching.Draw | line-monsters/src/spritebatch.rs:33-86 | faults iff vertices + 4 > 65535 or indices + 6 > u32::MAX; appends 4 vertices and [0,1,3,1,2,3] plus the pending vertex count; on an id change it first closes the open batch, so the new batch's indices start at 0 |
| Batching.CloseIsPending | line-monsters/src/spritebatch.rs:111-117 | under the invariant, the batch `flush_to_buffer` closes (count cast `as u32`) is exactly the open batch of the reference grouping |
| Batching.GetBuffer | line-monsters/src/spritebatch.rs:124-128 | returns every finished batch then the open one, in order; leaves a fresh Spritebatch when the invariant holds |
| Batching.PushAll | line-monsters/src/spritebatch.rs:33-122 | pushing a sequence keeps the invariant and never rewrites finished batches |
| Batching.PushAllThenGetBuffer | line-monsters/src/spritebatch.rs:37-128 | draining after pushes gives the finished batches, then the open batch combined with the reference grouping of the pushes |
| Batching.PushAllGroupsRuns | line-monsters/src/spritebatch.rs:37-128 | from a fresh Spritebatch the drained batches are the reference grouping: one per maximal same-id run, with adjacent ids distinct |
| Batching.GroupSize | line-monsters/src/spritebatch.rs:37-43 | the reference grouping has exactly as many batches as there are runs, led by the first push's texture |
| Batching.GroupAdjacentDistinct | line-monsters/src/spritebatch.rs:37-43 | neighbouring batches of the reference grouping have different texture ids |
| Batching.PushAllFits | line-monsters/src/spritebatch.rs:33-86 | pushes whose total vertices and indices fit beside the pending geometry never fault |
| Batching.PushAllOverflowsRun | line-monsters/src/spritebatch.rs:33-86 | pushes under one texture id whose vertices outgrow 65535 with the pending ones always fault |
| Batching.ConcatTotals | line-monsters/src/spritebatch.rs:33-86 | groups of pushes with equal vertex and index totals supply those totals once per group |
| Batching.TwoPushesRebase | line-monsters/src/spritebatch.rs:74-85 | two same-texture pushes form one batch with verts_a ++ verts_b and idx_a ++ (idx_b + len(verts_a)) |
| Editor.RaiseHeight | line-monsters/src/game/mod.rs:344-350 | raising adds at most one, and leaves the height unchanged exactly at u8::MAX |
| Editor.LowerHeight | line-monsters/src/game/mod.rs:352-358 | lowering subtracts at most one, and leaves the height unchanged exactly at 0 |
| Editor.EditAt | line-monsters/src/game/mod.rs:344-375 | one flagged edit through get_tile: a miss changes nothing; a hit makes the selected tile the edited tile and leaves every other coordinate unchanged |
| Editor.HeightSaturation | line-monsters/src/game/mod.rs:344-358 | raise stops at 255, lower stops at 0, and each undoes the other away from the bounds |
| Editor.EditTile | line-monsters/src/game/mod.rs:344-375 | the tick's combined edit: height raised then lowered (saturating), model swapped and rotation advanced exactly when flagged |
| Editor.ApplyIntents | line-monsters/src/game/mod.rs:320-375 | every intent ends false; the selection moves by the net delta (up y-1, down y+1, left x-1, right x+1); save is reported |
| Editor.IntentsEditSelectedTile | line-monsters/src/game/mod.rs:344-375 | on a lookup miss the map is unchanged; otherwise only the selected tile changes, to the combined edit |
| Editor.ProduceVerts | line-monsters/src/game/mod.rs:377-404 | as many vertices as the table, its indices unchanged, each the rotated table vertex moved by (x, height + 0.25 if selected, y) |
| Editor.ProducedVerticesInCell | line-monsters/src/game/mod.rs:377-404 | every vertex of a model other than InnerCorner lies within half a unit of the tile's cell centre (x, height + lift, y) |
| Editor.PassSlots | line-monsters/src/game/mod.rs:409-447 | a pass takes exactly the slots whose model it selects (Floor or Corner; not Floor), in increasing order |
| Editor.PassOp | line-monsters/src/game/mod.rs:430-461 | a grass-pass push carries the Floor table's indices and vertex count under the grass texture; a wall-pass push carries the tile's own model under the wall texture |
| Editor.PassOps | line-monsters/src/game/mod.rs:406-462 | one push per selected slot, in slot order, each the tile's geometry at its world position (Floor for the grass pass, its own model for the wall pass) under the pass's texture |
| Editor.ChunkOps | line-monsters/src/game/mod.rs:406-462 | a chunk pushes its grass-pass slots under the grass texture, then its wall-pass slots under the wall texture |
| Editor.FrameOps | line-monsters/src/game/mod.rs:406-463 | every push of the tick indexes only its own vertices |
| Editor.FrameOpsConcat | line-monsters/src/game/mod.rs:406-463 | the tick's pushes are the chunks' pushes, one chunk after another in map order |
| Editor.FrameRunBound | line-monsters/src/game/mod.rs:406-463 | the tick's pushes form at most two same-texture runs per chunk |
| Editor.Tick | line-monsters/src/game/mod.rs:320-467 | a tick fails exactly when pushing its geometry fails; otherwise it applies the edits and hands out the reference grouping of its pushes: at most 2 batches per chunk, each well-formed, adjacent ids distinct |
| Editor.FloorChunkOps | line-monsters/src/game/mod.rs:406-462 | a flat floor chunk pushes 1024 floor quads (4096 vertices, 6144 indices) under the grass texture and nothing in its wall pass |
| Editor.FloorFrameCapacity | line-monsters/src/game/mod.rs:406-463 | the geometry of a flat floor map fits one Spritebatch iff the map has at most 15 chunks |
| Editor.IntentsKeepFloor | line-monsters/src/game/mod.rs:344-375 | edits that do not swap a model keep a flat floor map flat floor |
| Editor.FloorMapTick | line-monsters/src/game/mod.rs:320-467 | a tick over a flat floor map without a model swap succeeds iff the map has at most 15 chunks |
| Editor.RaiseTwiceScenario | line-monsters/src/game/mod.rs:344-350 | on one flat chunk at (0, 0), raising (5, 5) in two edit steps (`ApplyIntents`) gives height 2 there and leaves every other tile |
| Editor.RaiseMissScenario | line-monsters/src/game/mod.rs:308-318 | raising (-1, -1) when only chunk (0, 0) exists leaves the map unchanged |

## Left out

- `Scene::serialize` and `Scene::deserialize` (`game/mod.rs:201-229`) are file I/O through derive macros whose encoding is not visible. The tick reports a save only as a flag.
- `Scene::input` (`game/mod.rs:231-285`) is window-event decoding. The intent flags are inputs to the tick instead.
- `main.rs`, `renderer.rs` and `camera.rs` are GPU, window and camera setup. They contain no logic the core depends on.
- The `state.spritebatch_buffers` handoff (`game/mod.rs:465-466`) is a plain assignment. The batches are returned in `Frame` instead.
- Batching.Draw: the quad's edge vectors come from a Rotor3 rotation and f32 scaling by texture size / 256 (`spritebatch.rs:45-51`). They are parameters here. The model keeps only the corner arrangement and the texture coordinates.
- GPU buffer creation and `Arc` reference counting are not modelled. A buffer is the sequence it is built from, and a texture handle is its `{id, width, height}` record.
- Chunks.XyToChunkCoord: the chunk coordinate is computed through `f32` (`game/mod.rs:288-289`). It is modelled as exact floor division, which agrees with the source only for |x|, |y| <= 2^24.
- Editor.ApplyIntents: the selection and chunk coordinates are `isize`. Overflow at `isize::MIN`/`MAX` when the selection moves, or in `chunk.x * 32`, is not modelled.
- Editor.ProduceVerts: positions are exact reals, and f32 rounding is not modelled. They agree with the source's f32 sums `position + x as f32` (`game/mod.rs:390,398`) only for |x|, |y| < 2^21; at x = 2^21 a corner vertex at offset 0.375 is not representable in f32. The corner table's texture coordinates 0.4, 0.6, 0.35 and 0.65 are taken as exact decimals.
- Batching.Push: the rule is assumed for `push_verts`, which is defined in `renderer/spritebatch.rs` (declared by `renderer.rs:1`), which this model does not cover. Pushed meshes are required to index only their own vertices.
- Tiles.GetModel: the inner-corner table is a caller-supplied well-formed mesh, because `models::inner_corner` is not part of this model.
- Editor.Tick: a tick may return a fault. The exact threshold is proved only for flat floor maps under a tick that does not swap a model (`FloorMapTick`). For other maps, `PushAllFits` and `PushAllOverflowsRun` give sufficient conditions.

=== FILE: batching.dfy ===
/** The Spritebatch (`spritebatch.rs`): an accumulator that appends
    geometry to one pending batch per texture and closes the batch into
    the list of finished buffers whenever the texture changes. GPU buffers
    are represented by the sequences they are built from. */
module Batching {
  import opened Wrappers
  import opened Geometry

  /** A texture handle; batching compares handles by `id` only. */
  datatype Texture = Texture(id: int, width: nat, height: nat)

  /** A finished batch: its texture, the contents of its vertex buffer,
      the contents of its index buffer and the index count stored with it. */
  datatype Batch = Batch(texture: Texture, vertices: seq<Vertex>, indices: seq<int>, count: int)

  /** The accumulator: finished batches, the texture of the open batch (if
      any) and the open batch's pending vertices and indices. */
  datatype Spritebatch = Spritebatch(
    buffers: seq<Batch>,
    current: Option<Texture>,
    vertices: seq<Vertex>,
    indices: seq<U16>)

  /** The fatal assertions of `draw`. */
  datatype Fault = VertexOverflow | IndexOverflow

  /** One request to push geometry with a texture. */
  datatype Op = Op(mesh: Mesh, texture: Texture)

  /** A finished batch is self-contained: its count is its index count and
      every index names one of its own (at most 65535) vertices. */
  predicate BatchWellFormed(b: Batch)
  {
    && b.count == |b.indices|
    && |b.vertices| <= U16_MAX
    && IndicesInBounds(|b.vertices|, b.indices)
  }

  /** The invariant `draw`, `flush_to_buffer` and `get_buffer` keep. */
  predicate Inv(s: Spritebatch)
  {
    && (s.current.None? ==> s.vertices == [] && s.indices == [])
    && |s.vertices| <= U16_MAX
    && |s.indices| <= U32_MAX
    && IndicesInBounds(|s.vertices|, s.indices)
    && forall k :: 0 <= k < |s.buffers| ==> BatchWellFormed(s.buffers[k])
  }

  /** A pushed mesh indexes only its own vertices. */
  predicate SelfContained(op: Op)
  {
    IndicesInBounds(|op.mesh.vertices|, op.mesh.indices)
  }

  /** `Spritebatch::new`: nothing finished, no texture open. */
  function New(): (s: Spritebatch)
    ensures Inv(s) && s.buffers == [] && s.current.None?
  {
    Spritebatch([], None, [], [])
  }

  /** Every index increased by `k`. */
  function Shift(xs: seq<int>, k: int): (r: seq<int>)
    ensures |r| == |xs|
    ensures forall i :: 0 <= i < |xs| ==> r[i] == xs[i] + k
  {
    seq(|xs|, i requires 0 <= i < |xs| => xs[i] + k)
  }

  /** The u16 rebasing `*index += cur_idx as u16` of the indices of a mesh
      with `vertexCount` vertices appended after `base` pending vertices:
      when the combined vertex count fits the 16-bit index space, no
      addition overflows and the rebased indices name exactly the appended
      vertices. */
  function Rebase(indices: seq<U16>, base: nat, vertexCount: nat): (r: seq<U16>)
    requires IndicesInBounds(vertexCount, indices)
    requires base + vertexCount <= U16_MAX + 1
    ensures forall i :: 0 <= i < |r| ==> base <= r[i] < base + vertexCount
    ensures IndicesInBounds(base + vertexCount, r)
    ensures r == Shift(indices, base)
  {
    Shift(indices, base)
  }

  /** The open batch as it is closed into a buffer; the index count goes
      through the `as u32` cast. */
  function Close(s: Spritebatch): Batch
    requires s.current.Some?
  {
    Batch(s.current.value, s.vertices, s.indices, |s.indices| % (U32_MAX + 1))
  }

  /** `flush_to_buffer`: closes the open batch (if any) into `buffers`,
      empties the pending lists and opens `next`. */
  function Flush(s: Spritebatch, next: Option<Texture>): (r: Spritebatch)
    ensures s.current.None? ==> r == s
    ensures s.current.Some? ==>
      && |r.buffers| == |s.buffers| + 1
      && r.buffers[..|s.buffers|] == s.buffers
      && r.buffers[|s.buffers|].texture == s.current.value
      && r.buffers[|s.buffers|].vertices == s.vertices
      && r.buffers[|s.buffers|].indices == s.indices
      && (|s.indices| <= U32_MAX ==> r.buffers[|s.buffers|].count == |s.indices|)
      && r.current == next && r.vertices == [] && r.indices == []
    ensures Inv(s) ==> Inv(r)
  {
    if s.current.None? then s
    else Spritebatch(s.buffers + [Close(s)], next, [], [])
  }

  /** The texture handling at the head of `draw`: open `t` when nothing is
      open, flush when the open texture has a different id, otherwise keep
      the open batch (and its texture handle). */
  function SwitchTexture(s: Spritebatch, t: Texture): (r: Spritebatch)
    ensures r.current.Some? && r.current.value.id == t.id
    ensures s.current.Some? && s.current.value.id == t.id ==> r == s
    ensures s.current.None? ==> r == s.(current := Some(t))
    ensures s.current.Some? && s.current.value.id != t.id ==> r == Flush(s, Some(t))
    ensures |r.vertices| <= |s.vertices| && |r.indices| <= |s.indices|
  {
    if s.current.Some? then
      if s.current.value.id != t.id then Flush(s, Some(t)) else s
    else s.(current := Some(t))
  }

  /** Pushes a self-contained mesh with texture `t`: the two capacity
      assertions, the texture switch, then the vertices appended and the
      indices appended rebased by the pending vertex count. */
  function Push(s: Spritebatch, m: Mesh, t: Texture): (r: Result<Spritebatch, Fault>)
    requires IndicesInBounds(|m.vertices|, m.indices)
    ensures r.Err? <==> |s.vertices| + |m.vertices| > U16_MAX || |s.indices| + |m.indices| > U32_MAX
    ensures r == Err(VertexOverflow) <==> |s.vertices| + |m.vertices| > U16_MAX
    ensures r.Ok? ==>
      var s1 := SwitchTexture(s, t);
      && r.value.buffers == s1.buffers
      && r.value.current == s1.current
      && r.value.vertices == s1.vertices + m.vertices
      && r.value.indices == s1.indices + Shift(m.indices, |s1.vertices|)
    ensures Inv(s) && r.Ok? ==> Inv(r.value)
  {
    if |s.vertices| + |m.vertices| > U16_MAX then Err(VertexOverflow)
    else if |s.indices| + |m.indices| > U32_MAX then Err(IndexOverflow)
    else
      var s1 := SwitchTexture(s, t);
      Ok(s1.(vertices := s1.vertices + m.vertices,
             indices := s1.indices + Rebase(m.indices, |s1.vertices|, |m.vertices|)))
  }

  /** The two triangles (0, 1, 3) and (1, 2, 3) of a quad. */
  const QuadIndices: seq<U16> := [0, 1, 3, 1, 2, 3]

  /** The four corners of the quad `draw` builds: the anchor, the anchor
      plus the bottom-left edge, plus both edges, plus the top-right edge,
      with texture corners (0,0), (0,1), (1,1), (1,0). */
  function QuadVertices(position: Vec3, bottomLeft: Vec3, topRight: Vec3): seq<Vertex>
  {
    [ Vertex(position, (0.0, 0.0)),
      Vertex(Add(position, bottomLeft), (0.0, 1.0)),
      Vertex(Add(position, Add(topRight, bottomLeft)), (1.0, 1.0)),
      Vertex(Add(position, topRight), (1.0, 0.0)) ]
  }

  /** `draw`: pushes one quad. The edges are the rotated, texture-scaled
      unit vectors the source derives from `plane` and the texture size. */
  function Draw(s: Spritebatch, position: Vec3, bottomLeft: Vec3, topRight: Vec3, t: Texture): (r: Result<Spritebatch, Fault>)
    ensures r.Err? <==> |s.vertices| + 4 > U16_MAX || |s.indices| + 6 > U32_MAX
    ensures r.Ok? && s.current.None? ==>
      && r.value.current == Some(t) && r.value.buffers == s.buffers
      && r.value.vertices == s.vertices + QuadVertices(position, bottomLeft, topRight)
      && r.value.indices == s.indices + Shift(QuadIndices, |s.vertices|)
    ensures r.Ok? && s.current.Some? && s.current.value.id == t.id ==>
      && r.value.current == s.current && r.value.buffers == s.buffers
      && r.value.vertices == s.vertices + QuadVertices(position, bottomLeft, topRight)
      && r.value.indices == s.indices + Shift(QuadIndices, |s.vertices|)
    ensures r.Ok? && s.current.Some? && s.current.value.id != t.id ==>
      && r.value.current == Some(t) && r.value.buffers == s.buffers + [Close(s)]
      && r.value.vertices == QuadVertices(position, bottomLeft, topRight)
      && r.value.indices == QuadIndices
    ensures Inv(s) && r.Ok? ==> Inv(r.value)
  {
    Push(s, Mesh(QuadVertices(position, bottomLeft, topRight), QuadIndices), t)
  }

  /** `get_buffer`: a final flush with no next texture, then every finished
      batch is handed out and `buffers` is left empty. */
  function GetBuffer(s: Spritebatch): (r: (seq<Batch>, Spritebatch))
    ensures r.0 == s.buffers + (if s.current.Some? then [Close(s)] else [])
    ensures r.1.buffers == [] && r.1.current.None?
    ensures Inv(s) ==> r.1 == New() && forall k :: 0 <= k < |r.0| ==> BatchWellFormed(r.0[k])
  {
    var f := Flush(s, None);
    (f.buffers, f.(buffers := []))
  }

  /** Pushes every request in order, stopping at the first fault. */
  function PushAll(s: Spritebatch, ops: seq<Op>): (r: Result<Spritebatch, Fault>)
    requires forall k :: 0 <= k < |ops| ==> SelfContained(ops[k])
    ensures Inv(s) && r.Ok? ==> Inv(r.value)
    ensures r.Ok? ==> |s.buffers| <= |r.value.buffers| && r.value.buffers[..|s.buffers|] == s.buffers
    decreases |ops|
  {
    if |ops| == 0 then Ok(s)
    else
      assert SelfContained(ops[0]);
      match Push(s, ops[0].mesh, ops[0].texture)
      case Err(f) => Err(f)
      case Ok(s1) => PushAll(s1, ops[1..])
  }

  // ---------------------------------------------------------------------
  // Reference grouping: one batch per maximal run of same-id requests.
  // ---------------------------------------------------------------------

  /** The batch one request forms on its own. */
  function Single(op: Op): Batch
  {
    Batch(op.texture, op.mesh.vertices, op.mesh.indices, |op.mesh.indices|)
  }

  /** Batch `c` appended to batch `b`: `b` keeps its texture and `c`'s
      indices are rebased past `b`'s vertices. */
  function Append(b: Batch, c: Batch): Batch
  {
    Batch(b.texture, b.vertices + c.vertices, b.indices + Shift(c.indices, |b.vertices|), b.count + c.count)
  }

  /** Puts batch `p` (if any) in front of the grouping `g`, merging it
      with `g`'s first batch when the texture ids agree. */
  function Combine(p: Option<Batch>, g: seq<Batch>): seq<Batch>
  {
    match p
    case None => g
    case Some(b) =>
      if |g| > 0 && g[0].texture.id == b.texture.id then [Append(b, g[0])] + g[1..]
      else [b] + g
  }

  /** The batches a run of requests should produce, grouped from the right. */
  function Group(ops: seq<Op>): seq<Batch>
    decreases |ops|
  {
    if |ops| == 0 then [] else Combine(Some(Single(ops[0])), Group(ops[1..]))
  }

  /** The number of maximal runs of consecutive requests with equal texture id. */
  function RunCount(ops: seq<Op>): nat
    decreases |ops|
  {
    if |ops| == 0 then 0
    else if |ops| > 1 && ops[0].texture.id == ops[1].texture.id then RunCount(ops[1..])
    else 1 + RunCount(ops[1..])
  }

  /** The open batch, as the reference grouping sees it. Unlike `Close` its
      count is the plain index count: the grouping knows nothing of the
      `as u32` cast, and `CloseIsPending` shows the cast is the identity
      under the invariant. */
  function Pending(s: Spritebatch): Option<Batch>
  {
    if s.current.Some? then Some(Batch(s.current.value, s.vertices, s.indices, |s.indices|)) else None
  }

  /** Closing the open batch is the grouping's pending batch: the invariant
      keeps the index count below 2^32, where the cast changes nothing. */
  lemma CloseIsPending(s: Spritebatch)
    requires Inv(s) && s.current.Some?
    ensures Close(s) == Pending(s).value
  {
  }

  lemma ShiftZero(xs: seq<int>)
    ensures Shift(xs, 0) == xs
  {
  }

  lemma ShiftConcat(xs: seq<int>, ys: seq<int>, k: int)
    ensures Shift(xs + ys, k) == Shift(xs, k) + Shift(ys, k)
  {
  }

  lemma ShiftShift(xs: seq<int>, a: int, b: int)
    ensures Shift(Shift(xs, a), b) == Shift(xs, a + b)
  {
  }

  /** Appending batches is associative. */
  lemma AppendAssociative(b: Batch, c: Batch, d: Batch)
    ensures Append(Append(b, c), d) == Append(b, Append(c, d))
  {
    ShiftConcat(c.indices, Shift(d.indices, |c.vertices|), |b.vertices|);
    ShiftShift(d.indices, |c.vertices|, |b.vertices|);
  }

  /** A combined grouping starts with the texture of the batch put in front. */
  lemma CombineHead(b: Batch, g: seq<Batch>)
    ensures |Combine(Some(b), g)| > 0 && Combine(Some(b), g)[0].texture == b.texture
  {
  }

  /** Putting an appended pair in front equals putting its halves in front
      one after the other, when their ids agree. */
  lemma CombineAppend(b: Batch, c: Batch, g: seq<Batch>)
    requires b.texture.id == c.texture.id
    ensures Combine(Some(Append(b, c)), g) == Combine(Some(b), Combine(Some(c), g))
  {
    if |g| > 0 && g[0].texture.id == c.texture.id {
      AppendAssociative(b, c, g[0]);
    }
  }

  /** Pushing a request onto a well-formed accumulator extends its open
      batch as the reference grouping does. */
  lemma PushStep(s: Spritebatch, op: Op, rest: seq<Op>)
    requires Inv(s) && SelfContained(op)
    requires Push(s, op.mesh, op.texture).Ok?
    ensures var s1 := Push(s, op.mesh, op.texture).value;
      s1.buffers + Combine(Pending(s1), Group(rest)) == s.buffers + Combine(Pending(s), Group([op] + rest))
  {
    assert ([op] + rest)[1..] == rest;
    assert Group([op] + rest) == Combine(Some(Single(op)), Group(rest));
    if s.current.None? {
      PushOpens(s, op);
    } else if s.current.value.id == op.texture.id {
      PushExtends(s, op);
      CombineAppend(Pending(s).value, Single(op), Group(rest));
    } else {
      PushSwitches(s, op);
      CombineHead(Single(op), Group(rest));
    }
  }

  /** With nothing open, a push opens a batch holding just the request. */
  lemma PushOpens(s: Spritebatch, op: Op)
    requires Inv(s) && SelfContained(op) && s.current.None?
    requires Push(s, op.mesh, op.texture).Ok?
    ensures var s1 := Push(s, op.mesh, op.texture).value;
      s1.buffers == s.buffers && Pending(s1) == Some(Single(op))
  {
    var s1 := Push(s, op.mesh, op.texture).value;
    ShiftZero(op.mesh.indices);
    assert s1.vertices == op.mesh.vertices && s1.indices == op.mesh.indices;
  }

  /** With a same-id batch open, a push appends the request to it. */
  lemma PushExtends(s: Spritebatch, op: Op)
    requires Inv(s) && SelfContained(op) && s.current.Some? && s.current.value.id == op.texture.id
    requires Push(s, op.mesh, op.texture).Ok?
    ensures var s1 := Push(s, op.mesh, op.texture).value;
      s1.buffers == s.buffers && Pending(s1) == Some(Append(Pending(s).value, Single(op)))
  {
  }

  /** With a different-id batch open, a push closes it and opens a batch
      holding just the request. */
  lemma PushSwitches(s: Spritebatch, op: Op)
    requires Inv(s) && SelfContained(op) && s.current.Some? && s.current.value.id != op.texture.id
    requires Push(s, op.mesh, op.texture).Ok?
    ensures var s1 := Push(s, op.mesh, op.texture).value;
      s1.buffers == s.buffers + [Pending(s).value] && Pending(s1) == Some(Single(op))
  {
    var s1 := Push(s, op.mesh, op.texture).value;
    ShiftZero(op.mesh.indices);
    assert s1.vertices == op.mesh.vertices && s1.indices == op.mesh.indices;
    CloseIsPending(s);
  }

  /** Draining after any sequence of pushes from a well-formed accumulator
      yields its finished batches followed by the open batch combined with
      the reference grouping of the pushed requests. */
  lemma {:induction false} PushAllThenGetBuffer(s: Spritebatch, ops: seq<Op>)
    requires Inv(s)
    requires forall k :: 0 <= k < |ops| ==> SelfContained(ops[k])
    requires PushAll(s, ops).Ok?
    ensures GetBuffer(PushAll(s, ops).value).0 == s.buffers + Combine(Pending(s), Group(ops))
    decreases |ops|
  {
    if |ops| == 0 {
      if s.current.Some? {
        CloseIsPending(s);
      }
    } else {
      var s1 := Push(s, ops[0].mesh, ops[0].texture).value;
      assert [ops[0]] + ops[1..] == ops;
      PushAllThenGetBuffer(s1, ops[1..]);
      PushStep(s, ops[0], ops[1..]);
    }
  }

  /** From a fresh Spritebatch, the drained batches are exactly the
      reference grouping of the pushed requests: one batch per maximal run
      of same-id requests, in submission order, each carrying the texture
      of the run's first request. */
  lemma PushAllGroupsRuns(ops: seq<Op>)
    requires forall k :: 0 <= k < |ops| ==> SelfContained(ops[k])
    requires PushAll(New(), ops).Ok?
    ensures GetBuffer(PushAll(New(), ops).value).0 == Group(ops)
    ensures |Group(ops)| == RunCount(ops)
    ensures forall k :: 0 <= k < |Group(ops)| - 1 ==> Group(ops)[k].texture.id != Group(ops)[k + 1].texture.id
  {
    PushAllThenGetBuffer(New(), ops);
    GroupSize(ops);
    GroupAdjacentDistinct(ops);
  }

  /** The reference grouping has one batch per run. */
  lemma {:induction false} GroupSize(ops: seq<Op>)
    ensures |Group(ops)| == RunCount(ops)
    ensures |ops| > 0 ==> Group(ops)[0].texture == ops[0].texture
    decreases |ops|
  {
    if |ops| > 0 {
      GroupSize(ops[1..]);
      CombineHead(Single(ops[0]), Group(ops[1..]));
    }
  }

  /** Neighbouring batches of the reference grouping differ in texture id. */
  lemma {:induction false} GroupAdjacentDistinct(ops: seq<Op>)
    ensures forall k :: 0 <= k < |Group(ops)| - 1 ==> Group(ops)[k].texture.id != Group(ops)[k + 1].texture.id
    decreases |ops|
  {
    if |ops| > 0 {
      GroupAdjacentDistinct(ops[1..]);
    }
  }

  /** Two pushes with the same texture into a fresh Spritebatch form one
      batch whose vertices are concatenated and whose second index list is
      rebased by the first vertex count. */
  lemma TwoPushesRebase(a: Mesh, b: Mesh, t: Texture)
    requires IndicesInBounds(|a.vertices|, a.indices) && IndicesInBounds(|b.vertices|, b.indices)
    requires |a.vertices| + |b.vertices| <= U16_MAX
    requires |a.indices| + |b.indices| <= U32_MAX
    ensures Push(New(), a, t).Ok?
    ensures Push(Push(New(), a, t).value, b, t).Ok?
    ensures GetBuffer(Push(Push(New(), a, t).value, b, t).value).0
         == [Batch(t, a.vertices + b.vertices, a.indices + Shift(b.indices, |a.vertices|), |a.indices| + |b.indices|)]
  {
    ShiftZero(a.indices);
    var s1 := Push(New(), a, t).value;
    assert s1 == Spritebatch([], Some(t), a.vertices, a.indices);
    var s2 := Push(s1, b, t).value;
    assert s2 == Spritebatch([], Some(t), a.vertices + b.vertices, a.indices + Shift(b.indices, |a.vertices|));
  }

  /** A run of requests that all use one texture forms at most one batch. */
  lemma {:induction false} RunCountUniform(ops: seq<Op>, t: Texture)
    requires forall k :: 0 <= k < |ops| ==> ops[k].texture == t
    ensures RunCount(ops) <= 1
    decreases |ops|
  {
    if |ops| > 1 {
      RunCountUniform(ops[1..], t);
    }
  }

  /** Concatenating request lists adds at most their run counts. */
  lemma {:induction false} RunCountConcat(xs: seq<Op>, ys: seq<Op>)
    ensures RunCount(xs + ys) <= RunCount(xs) + RunCount(ys)
    decreases |xs|
  {
    if |xs| > 0 {
      assert (xs + ys)[1..] == xs[1..] + ys;
      RunCountConcat(xs[1..], ys);
    } else {
      assert xs + ys == ys;
    }
  }

  // ---------------------------------------------------------------------
  // Capacity: when a sequence of pushes fits, and when it must fault.
  // ---------------------------------------------------------------------

  /** The number of vertices a sequence of requests supplies. */
  function TotalVertices(ops: seq<Op>): nat
    decreases |ops|
  {
    if |ops| == 0 then 0 else |ops[0].mesh.vertices| + TotalVertices(ops[1..])
  }

  /** The number of indices a sequence of requests supplies. */
  function TotalIndices(ops: seq<Op>): nat
    decreases |ops|
  {
    if |ops| == 0 then 0 else |ops[0].mesh.indices| + TotalIndices(ops[1..])
  }

  /** Requests that fit beside the pending geometry never fault: the
      capacity assertions only look at the pending buffers, which a texture
      switch can only shorten. */
  lemma {:induction false} PushAllFits(s: Spritebatch, ops: seq<Op>)
    requires Inv(s)
    requires forall k :: 0 <= k < |ops| ==> SelfContained(ops[k])
    requires |s.vertices| + TotalVertices(ops) <= U16_MAX
    requires |s.indices| + TotalIndices(ops) <= U32_MAX
    ensures PushAll(s, ops).Ok?
    decreases |ops|
  {
    if |ops| > 0 {
      assert SelfContained(ops[0]);
      var r := Push(s, ops[0].mesh, ops[0].texture);
      assert r.Ok?;
      PushAllFits(r.value, ops[1..]);
    }
  }

  /** Requests that all bind textures of one id, the id already bound if
      any, never flush; so once their vertices outgrow the 16-bit index
      range some push faults. */
  lemma {:induction false} PushAllOverflowsRun(s: Spritebatch, ops: seq<Op>, id: int)
    requires Inv(s)
    requires forall k :: 0 <= k < |ops| ==> SelfContained(ops[k])
    requires forall k :: 0 <= k < |ops| ==> ops[k].texture.id == id
    requires s.current.Some? ==> s.current.value.id == id
    requires |s.vertices| + TotalVertices(ops) > U16_MAX
    ensures PushAll(s, ops).Err?
    decreases |ops|
  {
    if |ops| == 0 {
      assert false;
    } else {
      assert SelfContained(ops[0]);
      var r := Push(s, ops[0].mesh, ops[0].texture);
      if r.Ok? {
        PushAllOverflowsRun(r.value, ops[1..], id);
      }
    }
  }

  /** Totals add up over a concatenation. */
  lemma {:induction false} TotalsConcat(xs: seq<Op>, ys: seq<Op>)
    ensures TotalVertices(xs + ys) == TotalVertices(xs) + TotalVertices(ys)
    ensures TotalIndices(xs + ys) == TotalIndices(xs) + TotalIndices(ys)
    decreases |xs|
  {
    if |xs| > 0 {
      assert (xs + ys)[1..] == xs[1..] + ys;
      TotalsConcat(xs[1..], ys);
    } else {
      assert xs + ys == ys;
    }
  }

  /** Requests of one shape supply that shape's counts once each. */
  lemma {:induction false} TotalsUniform(ops: seq<Op>, v: nat, i: nat)
    requires forall k :: 0 <= k < |ops| ==> |ops[k].mesh.vertices| == v && |ops[k].mesh.indices| == i
    ensures TotalVertices(ops) == v * |ops| && TotalIndices(ops) == i * |ops|
    decreases |ops|
  {
    if |ops| > 0 {
      TotalsUniform(ops[1..], v, i);
      assert v * |ops| == v + v * (|ops| - 1);
      assert i * |ops| == i + i * (|ops| - 1);
    }
  }

  /** Every request binds texture `t`. */
  predicate AllBound(ops: seq<Op>, t: Texture)
  {
    forall k :: 0 <= k < |ops| ==> ops[k].texture == t
  }

  lemma BoundConcat(xs: seq<Op>, ys: seq<Op>, t: Texture)
    requires AllBound(xs, t) && AllBound(ys, t)
    ensures AllBound(xs + ys, t)
  {
    forall k | 0 <= k < |xs + ys|
      ensures (xs + ys)[k].texture == t
    {
      if k >= |xs| {
        assert (xs + ys)[k] == ys[k - |xs|];
      }
    }
  }

  /** The requests of several groups, one group after another. */
  function Concat(parts: seq<seq<Op>>): seq<Op>
    decreases |parts|
  {
    if |parts| == 0 then [] else parts[0] + Concat(parts[1..])
  }

  /** Groups of equal totals supply those totals once per group. */
  lemma {:induction false} ConcatTotals(parts: seq<seq<Op>>, v: nat, i: nat)
    requires forall j :: 0 <= j < |parts| ==> TotalVertices(parts[j]) == v && TotalIndices(parts[j]) == i
    ensures TotalVertices(Concat(parts)) == v * |parts| && TotalIndices(Concat(parts)) == i * |parts|
    decreases |parts|
  {
    if |parts| > 0 {
      ConcatTotals(parts[1..], v, i);
      TotalsConcat(parts[0], Concat(parts[1..]));
      assert v * |parts| == v + v * (|parts| - 1);
      assert i * |parts| == i + i * (|parts| - 1);
    }
  }
}

=== FILE: chunks.dfy ===
/** The chunked tile grid (`game/mod.rs`): 32 x 32 chunks of tiles kept in
    a list, the world-to-chunk coordinate split and the tile lookup. */
module Chunks {
  import opened Wrappers
  import opened Tiles

  /** `Chunk::WIDTH` and `Chunk::HEIGHT`. */
  const Width: int := 32
  const Height: int := 32

  /** The number of tiles in a chunk. */
  const TileCount: int := Width * Height

  /** The tile every slot of `Chunk::new` holds. */
  const DefaultTile: Tile := Tile(0, Floor, Zero)

  /** A chunk's dense tile array, row-major: local (x, y) is slot y * 32 + x. */
  type TileArray = s: seq<Tile> | |s| == TileCount witness seq(TileCount, _ => DefaultTile)

  datatype Chunk = Chunk(x: int, y: int, tiles: TileArray)

  /** The map: chunks in load order. */
  type Map = seq<Chunk>

  /** A world coordinate split into chunk coordinate and in-chunk offset. */
  datatype ChunkCoord = ChunkCoord(chunkX: int, chunkY: int, localX: int, localY: int)

  /** `Chunk::new`: a chunk at (x, y) full of flat height-0 floor. */
  function NewChunk(x: int, y: int): (c: Chunk)
    ensures c.x == x && c.y == y
    ensures forall n :: 0 <= n < |c.tiles| ==> c.tiles[n] == DefaultTile
  {
    Chunk(x, y, seq(TileCount, _ => DefaultTile))
  }

  function Abs(a: int): nat
  {
    if a < 0 then -a else a
  }

  /** Rust's `/` on signed integers: the quotient is rounded toward zero. */
  function TruncDiv(a: int, b: int): int
    requires b > 0
  {
    if a >= 0 then a / b else -((-a) / b)
  }

  /** Rust's `%` on signed integers: the remainder of the truncating
      division, so it has the dividend's sign. */
  function TruncRem(a: int, b: int): (r: int)
    requires b > 0
    ensures a == b * TruncDiv(a, b) + r
    ensures a >= 0 ==> 0 <= r < b
    ensures a < 0 ==> -b < r <= 0
  {
    if a >= 0 then a % b else -((-a) % b)
  }

  /** The in-chunk offset along one axis: `v % 32` for non-negative `v`,
      otherwise `Width - 1 - |(v + 1) % Width|`. */
  function LocalOffset(v: int): int
  {
    if v >= 0 then TruncRem(v, Width) else Width - 1 - Abs(TruncRem(v + 1, Width))
  }

  /** The chunk coordinate along one axis: floor(v / 32). Dafny's `/` by a
      positive divisor rounds toward negative infinity. */
  function ChunkOf(v: int): int
  {
    v / Width
  }

  /** The offset expression is the floor modulus, for either sign. */
  lemma LocalOffsetIsFloorMod(v: int)
    ensures LocalOffset(v) == v % Width
  {
    if v < 0 {
      var q, r := v / Width, v % Width;
      assert v == Width * q + r;
      assert -v - 1 == Width * (-q - 1) + (Width - 1 - r);
      assert (-v - 1) % Width == Width - 1 - r;
    }
  }

  /** `Scene::xy_to_chunk_coord`. */
  function XyToChunkCoord(x: int, y: int): (r: ChunkCoord)
    ensures 0 <= r.localX < Width && 0 <= r.localY < Height
    ensures r.chunkX * Width + r.localX == x
    ensures r.chunkY * Height + r.localY == y
  {
    LocalOffsetIsFloorMod(x);
    LocalOffsetIsFloorMod(y);
    ChunkCoord(ChunkOf(x), ChunkOf(y), LocalOffset(x), LocalOffset(y))
  }

  /** The split is unique: any chunk/offset pair that reconstructs the
      coordinate is the one `XyToChunkCoord` returns. */
  lemma ChunkCoordUnique(x: int, y: int, c: ChunkCoord)
    requires 0 <= c.localX < Width && 0 <= c.localY < Height
    requires c.chunkX * Width + c.localX == x && c.chunkY * Height + c.localY == y
    ensures XyToChunkCoord(x, y) == c
  {
    var r := XyToChunkCoord(x, y);
    AxisUnique(x, Width, c.chunkX, c.localX, r.chunkX, r.localX);
    AxisUnique(y, Height, c.chunkY, c.localY, r.chunkY, r.localY);
  }

  /** Splitting v into a multiple of w and an offset in [0, w) is unique. */
  lemma AxisUnique(v: int, w: int, c1: int, l1: int, c2: int, l2: int)
    requires 0 <= l1 < w && 0 <= l2 < w
    requires c1 * w + l1 == v && c2 * w + l2 == v
    ensures c1 == c2 && l1 == l2
  {
    var d := c2 - c1;
    assert d * w == l1 - l2;
    if d >= 1 {
      assert false;
    } else if d <= -1 {
      assert false;
    }
  }

  /** The slot of local (x, y) in a chunk's tile array. */
  function LocalIndex(c: ChunkCoord): int
  {
    c.localY * Width + c.localX
  }

  /** The first chunk of the map at chunk coordinate (cx, cy), if any. */
  function FindChunk(m: Map, cx: int, cy: int): (r: Option<nat>)
    ensures r.Some? ==> r.value < |m| && m[r.value].x == cx && m[r.value].y == cy
    ensures r.Some? ==> forall j :: 0 <= j < r.value ==> !(m[j].x == cx && m[j].y == cy)
    ensures r.None? <==> forall j :: 0 <= j < |m| ==> !(m[j].x == cx && m[j].y == cy)
    decreases |m|
  {
    if |m| == 0 then None
    else if m[0].x == cx && m[0].y == cy then Some(0)
    else
      match FindChunk(m[1..], cx, cy)
      case None => None
      case Some(i) => Some(i + 1)
  }

  /** `Scene::get_tile`: the tile at world (x, y) in the first chunk that
      covers it, or None when no chunk does (no chunk is created). */
  function GetTile(m: Map, x: int, y: int): (r: Option<Tile>)
    ensures var cc := XyToChunkCoord(x, y);
      r.Some? <==> exists j :: 0 <= j < |m| && m[j].x == cc.chunkX && m[j].y == cc.chunkY
  {
    var cc := XyToChunkCoord(x, y);
    match FindChunk(m, cc.chunkX, cc.chunkY)
    case None => None
    case Some(i) => Some(m[i].tiles[LocalIndex(cc)])
  }

  /** Writes `t` through the reference `get_tile` hands out; nothing is
      written when no chunk covers (x, y). */
  function SetTile(m: Map, x: int, y: int, t: Tile): (r: Map)
    ensures |r| == |m|
    ensures GetTile(m, x, y).None? ==> r == m
    ensures forall j :: 0 <= j < |m| ==> r[j].x == m[j].x && r[j].y == m[j].y
  {
    var cc := XyToChunkCoord(x, y);
    match FindChunk(m, cc.chunkX, cc.chunkY)
    case None => m
    case Some(i) => m[i := m[i].(tiles := m[i].tiles[LocalIndex(cc) := t])]
  }

  /** A write changes only the addressed tile of the first covering chunk:
      chunk coordinates, every other chunk and every other slot are kept. */
  lemma SetTileFrame(m: Map, x: int, y: int, t: Tile)
    ensures var r := SetTile(m, x, y, t);
      var cc := XyToChunkCoord(x, y);
      && (GetTile(m, x, y).None? ==> r == m)
      && (forall j :: 0 <= j < |m| ==> r[j].x == m[j].x && r[j].y == m[j].y)
      && (forall j, n :: 0 <= j < |m| && 0 <= n < TileCount ==>
            r[j].tiles[n] == if FindChunk(m, cc.chunkX, cc.chunkY) == Some(j) && n == LocalIndex(cc) then t else m[j].tiles[n])
  {
  }

  /** Reading back a write: the written tile when a chunk covers (x, y). */
  lemma GetAfterSet(m: Map, x: int, y: int, t: Tile)
    ensures GetTile(SetTile(m, x, y, t), x, y) == if GetTile(m, x, y).Some? then Some(t) else None
  {
    var cc := XyToChunkCoord(x, y);
    var r := SetTile(m, x, y, t);
    SetTileFrame(m, x, y, t);
    SameChunkCoords(m, r, cc.chunkX, cc.chunkY);
  }

  /** Pointwise frame of a write: reading one other coordinate (x', y')
      gives what it gave before, whether or not it shares (x, y)'s chunk. */
  lemma GetAfterSetOther(m: Map, x: int, y: int, t: Tile, x': int, y': int)
    requires (x', y') != (x, y)
    ensures GetTile(SetTile(m, x, y, t), x', y') == GetTile(m, x', y')
  {
    var cc, cc' := XyToChunkCoord(x, y), XyToChunkCoord(x', y');
    var r := SetTile(m, x, y, t);
    SetTileFrame(m, x, y, t);
    SameChunkCoords(m, r, cc'.chunkX, cc'.chunkY);
    if (cc.chunkX, cc.chunkY) == (cc'.chunkX, cc'.chunkY) {
      assert LocalIndex(cc) != LocalIndex(cc') by {
        if LocalIndex(cc) == LocalIndex(cc') {
          AxisUnique(cc.localY * Width + cc.localX, Width, cc.localY, cc.localX, cc'.localY, cc'.localX);
        }
      }
    }
  }

  /** The same frame for all coordinates at once, in the quantified form
      that callers editing the map use. */
  lemma SetTileElsewhere(m: Map, x: int, y: int, t: Tile)
    ensures forall x', y' :: (x', y') != (x, y) ==> GetTile(SetTile(m, x, y, t), x', y') == GetTile(m, x', y')
  {
    forall x', y' | (x', y') != (x, y)
      ensures GetTile(SetTile(m, x, y, t), x', y') == GetTile(m, x', y')
    {
      GetAfterSetOther(m, x, y, t, x', y');
    }
  }

  /** Chunk lookup depends only on the chunks' coordinates. */
  lemma {:induction false} SameChunkCoords(m: Map, r: Map, cx: int, cy: int)
    requires |r| == |m|
    requires forall j :: 0 <= j < |m| ==> r[j].x == m[j].x && r[j].y == m[j].y
    ensures FindChunk(r, cx, cy) == FindChunk(m, cx, cy)
    decreases |m|
  {
    if |m| > 0 {
      SameChunkCoords(m[1..], r[1..], cx, cy);
    }
  }

  /** Writing twice at one coordinate keeps only the second write. */
  lemma SetTwice(m: Map, x: int, y: int, t1: Tile, t2: Tile)
    ensures SetTile(SetTile(m, x, y, t1), x, y, t2) == SetTile(m, x, y, t2)
  {
    var cc := XyToChunkCoord(x, y);
    var r := SetTile(m, x, y, t1);
    SetTileFrame(m, x, y, t1);
    SameChunkCoords(m, r, cc.chunkX, cc.chunkY);
    match FindChunk(m, cc.chunkX, cc.chunkY)
    case None =>
    case Some(i) =>
      var li := LocalIndex(cc);
      assert r[i].tiles[li := t2] == m[i].tiles[li := t2];
  }

  /** The world coordinate at which the tick draws slot `n` of chunk `c`:
      (n % Width + c.x * Width, n / Height + c.y * Height). */
  function WorldX(c: Chunk, n: nat): int
  {
    n % Width + c.x * Width
  }

  function WorldY(c: Chunk, n: nat): int
  {
    n / Height + c.y * Height
  }

  /** The enumeration of the tick and the addressing of `get_tile` agree:
      slot n's world coordinate splits back into the chunk's coordinate
      and local (n % Width, n / Height), whose slot is n again. */
  lemma EnumerationAddressing(c: Chunk, n: nat)
    requires n < TileCount
    ensures XyToChunkCoord(WorldX(c, n), WorldY(c, n)) == ChunkCoord(c.x, c.y, n % Width, n / Height)
    ensures LocalIndex(XyToChunkCoord(WorldX(c, n), WorldY(c, n))) == n
  {
    ChunkCoordUnique(WorldX(c, n), WorldY(c, n), ChunkCoord(c.x, c.y, n % Width, n / Height));
  }

  /** The tile the tick draws for slot n of a chunk is the tile an edit at
      that world coordinate reaches, unless an earlier chunk of the map has
      the same coordinate and shadows it. */
  lemma DrawnTileIsEditedTile(m: Map, i: nat, n: nat)
    requires i < |m| && n < TileCount
    requires FindChunk(m, m[i].x, m[i].y) == Some(i)
    ensures GetTile(m, WorldX(m[i], n), WorldY(m[i], n)) == Some(m[i].tiles[n])
  {
    EnumerationAddressing(m[i], n);
  }
}

=== FILE: editor.dfy ===
/** The editor scene (`game/mod.rs`): the per-tick state machine that moves
    the selection, applies the pending edits to the selected tile and
    regenerates the geometry of every chunk into the Spritebatch. */
module Editor {
  import opened Wrappers
  import opened Geometry
  import opened Tiles
  import opened Chunks
  import opened Batching

  /** The edit-intent flags input handling sets and every tick clears. */
  datatype Intents = Intents(
    up: bool, down: bool, left: bool, right: bool,
    save: bool, raise: bool, lower: bool, swapModel: bool, rotateTile: bool)

  const NoIntents: Intents := Intents(false, false, false, false, false, false, false, false, false)

  /** The scene: pending intents, the selected world tile, the map and the
      two textures the tiles are drawn with. */
  datatype Scene = Scene(intents: Intents, selectedX: int, selectedY: int, chunks: Map, grass: Texture, wall: Texture)

  /** One tick's output: the updated scene, whether the map was saved, and
      the drained batches handed to the renderer. */
  datatype Frame = Frame(scene: Scene, saved: bool, batches: seq<Batch>)

  /** The four tile edits. */
  datatype Edit = Raise | Lower | Swap | Rotate

  /** Raising saturates at `u8::MAX`: one step up, except at the top. */
  function RaiseHeight(h: U8): (r: U8)
    ensures h <= r <= h + 1
    ensures r == h <==> h == 255
  {
    if h != 255 then h + 1 else h
  }

  /** Lowering saturates at 0: one step down, except at the bottom. */
  function LowerHeight(h: U8): (r: U8)
    ensures h - 1 <= r <= h
    ensures r == h <==> h == 0
  {
    if h > 0 then h - 1 else h
  }

  /** Raising and lowering undo each other away from the bounds, and stop
      at the bounds. */
  lemma HeightSaturation(h: U8)
    ensures RaiseHeight(h) == (if h == 255 then 255 else h + 1)
    ensures LowerHeight(h) == (if h == 0 then 0 else h - 1)
    ensures h < 255 ==> LowerHeight(RaiseHeight(h)) == h
    ensures h > 0 ==> RaiseHeight(LowerHeight(h)) == h
  {
  }

  function ApplyEdit(t: Tile, e: Edit): Tile
  {
    match e
    case Raise => t.(height := RaiseHeight(t.height))
    case Lower => t.(height := LowerHeight(t.height))
    case Swap => t.(model := SwapModel(t.model))
    case Rotate => t.(rotation := RotateNext(t.rotation))
  }

  /** One edit through `get_tile`: a lookup miss edits nothing; a hit
      edits the tile at (x, y) and no other. */
  function EditAt(m: Map, x: int, y: int, e: Edit): (r: Map)
    ensures GetTile(m, x, y).None? ==> r == m
    ensures GetTile(m, x, y).Some? ==> GetTile(r, x, y) == Some(ApplyEdit(GetTile(m, x, y).value, e))
    ensures forall x', y' :: (x', y') != (x, y) ==> GetTile(r, x', y') == GetTile(m, x', y')
  {
    match GetTile(m, x, y)
    case None => m
    case Some(t) =>
      GetAfterSet(m, x, y, ApplyEdit(t, e));
      SetTileElsewhere(m, x, y, ApplyEdit(t, e));
      SetTile(m, x, y, ApplyEdit(t, e))
  }

  /** What one tick's intents do to a tile, all four edits at once: raise,
      then lower, then swap the model, then rotate. */
  function EditTile(t: Tile, i: Intents): (r: Tile)
    ensures r.height == (if i.lower then LowerHeight(if i.raise then RaiseHeight(t.height) else t.height)
                         else if i.raise then RaiseHeight(t.height) else t.height)
    ensures r.model == (if i.swapModel then SwapModel(t.model) else t.model)
    ensures r.rotation == (if i.rotateTile then RotateNext(t.rotation) else t.rotation)
  {
    var t1 := if i.raise then ApplyEdit(t, Raise) else t;
    var t2 := if i.lower then ApplyEdit(t1, Lower) else t1;
    var t3 := if i.swapModel then ApplyEdit(t2, Swap) else t2;
    if i.rotateTile then ApplyEdit(t3, Rotate) else t3
  }

  /** The edit half of `Scene::tick`: move the selection, note the save,
      apply raise, lower, swap and rotate to the selected tile, and clear
      every intent. The returned flag says whether the map was saved. */
  function ApplyIntents(s: Scene): (r: (Scene, bool))
    ensures r.0.intents == NoIntents
    ensures r.0.selectedX == s.selectedX + (if s.intents.right then 1 else 0) - (if s.intents.left then 1 else 0)
    ensures r.0.selectedY == s.selectedY + (if s.intents.down then 1 else 0) - (if s.intents.up then 1 else 0)
    ensures r.1 == s.intents.save
    ensures r.0.grass == s.grass && r.0.wall == s.wall
  {
    var i := s.intents;
    var y0 := if i.up then s.selectedY - 1 else s.selectedY;
    var y := if i.down then y0 + 1 else y0;
    var x0 := if i.left then s.selectedX - 1 else s.selectedX;
    var x := if i.right then x0 + 1 else x0;
    var m1 := if i.raise then EditAt(s.chunks, x, y, Raise) else s.chunks;
    var m2 := if i.lower then EditAt(m1, x, y, Lower) else m1;
    var m3 := if i.swapModel then EditAt(m2, x, y, Swap) else m2;
    var m4 := if i.rotateTile then EditAt(m3, x, y, Rotate) else m3;
    (Scene(NoIntents, x, y, m4, s.grass, s.wall), i.save)
  }

  /** Writing back the tile that is already there changes nothing. */
  lemma SetSame(m: Map, x: int, y: int)
    requires GetTile(m, x, y).Some?
    ensures SetTile(m, x, y, GetTile(m, x, y).value) == m
  {
    var cc := XyToChunkCoord(x, y);
    var i := FindChunk(m, cc.chunkX, cc.chunkY).value;
    assert m[i].tiles[LocalIndex(cc) := m[i].tiles[LocalIndex(cc)]] == m[i].tiles;
  }

  /** An edit at a coordinate composes with the edits before it: the
      result is one write of the combined tile. */
  lemma EditAtAfterSet(m: Map, x: int, y: int, t: Tile, e: Edit)
    requires GetTile(m, x, y).Some?
    ensures EditAt(SetTile(m, x, y, t), x, y, e) == SetTile(m, x, y, ApplyEdit(t, e))
  {
    GetAfterSet(m, x, y, t);
    SetTwice(m, x, y, t, ApplyEdit(t, e));
  }

  /** The tick's edits reach only the selected tile: on a lookup miss the
      map is unchanged; otherwise the selected tile becomes the edited tile
      and every other coordinate reads as before. */
  lemma {:induction false} IntentsEditSelectedTile(s: Scene)
    ensures var r := ApplyIntents(s).0;
      GetTile(s.chunks, r.selectedX, r.selectedY).None? ==> r.chunks == s.chunks
    ensures var r := ApplyIntents(s).0;
      GetTile(s.chunks, r.selectedX, r.selectedY).Some? ==>
        r.chunks == SetTile(s.chunks, r.selectedX, r.selectedY, EditTile(GetTile(s.chunks, r.selectedX, r.selectedY).value, s.intents))
    ensures var r := ApplyIntents(s).0;
      forall x, y :: (x, y) != (r.selectedX, r.selectedY) ==> GetTile(r.chunks, x, y) == GetTile(s.chunks, x, y)
  {
    var r := ApplyIntents(s).0;
    var (x, y, m, i) := (r.selectedX, r.selectedY, s.chunks, s.intents);
    match GetTile(m, x, y)
    case None =>
    case Some(t) =>
      var t1 := if i.raise then ApplyEdit(t, Raise) else t;
      var t2 := if i.lower then ApplyEdit(t1, Lower) else t1;
      var t3 := if i.swapModel then ApplyEdit(t2, Swap) else t2;
      var t4 := if i.rotateTile then ApplyEdit(t3, Rotate) else t3;
      SetSame(m, x, y);
      var m1 := if i.raise then EditAt(m, x, y, Raise) else m;
      assert m1 == SetTile(m, x, y, t1);
      var m2 := if i.lower then EditAt(m1, x, y, Lower) else m1;
      if i.lower { EditAtAfterSet(m, x, y, t1, Lower); }
      assert m2 == SetTile(m, x, y, t2);
      var m3 := if i.swapModel then EditAt(m2, x, y, Swap) else m2;
      if i.swapModel { EditAtAfterSet(m, x, y, t2, Swap); }
      assert m3 == SetTile(m, x, y, t3);
      var m4 := if i.rotateTile then EditAt(m3, x, y, Rotate) else m3;
      if i.rotateTile { EditAtAfterSet(m, x, y, t3, Rotate); }
      assert m4 == SetTile(m, x, y, t4);
      assert r.chunks == m4;
      SetTileElsewhere(m, x, y, t4);
  }

  /** The selection-highlight lift: 0.25 for the selected tile, else 0. */
  function Lift(x: int, y: int, selX: int, selY: int): real
  {
    if selX == x && selY == y then 0.25 else 0.0
  }

  /** `produce_verts`: the model's table with every vertex rotated, then
      moved to (x, height + lift, y); the indices pass through unchanged. */
  function ProduceVerts(tile: Tile, x: int, y: int, rotation: TileRotation, selX: int, selY: int,
                        model: Model, innerCorner: Mesh): (r: Mesh)
    requires WellFormed(innerCorner)
    ensures var table := GetModel(model, innerCorner);
      && |r.vertices| == |table.vertices|
      && r.indices == table.indices
      && forall i :: 0 <= i < |r.vertices| ==>
           r.vertices[i].texCoords == table.vertices[i].texCoords
           && r.vertices[i].position == Add(RotateVertex(rotation, table.vertices[i]).position,
                                            Vec3(x as real, tile.height as real + Lift(x, y, selX, selY), y as real))
    ensures WellFormed(r)
  {
    var table := GetModel(model, innerCorner);
    var offset := Vec3(x as real, tile.height as real + Lift(x, y, selX, selY), y as real);
    Mesh(seq(|table.vertices|, i requires 0 <= i < |table.vertices| =>
               var v := RotateVertex(rotation, table.vertices[i]);
               Vertex(Add(v.position, offset), v.texCoords)),
         table.indices)
  }

  /** Every vertex the wall, corner or floor table produces lies in the tile's cell: within
      half a unit of (x, y) horizontally and of height + lift vertically. */
  lemma ProducedVerticesInCell(tile: Tile, x: int, y: int, rotation: TileRotation, selX: int, selY: int,
                               model: Model, innerCorner: Mesh)
    requires WellFormed(innerCorner) && model != InnerCorner
    ensures var r := ProduceVerts(tile, x, y, rotation, selX, selY, model, innerCorner);
      var centre := tile.height as real + Lift(x, y, selX, selY);
      forall i :: 0 <= i < |r.vertices| ==>
        && x as real - 0.5 <= r.vertices[i].position.x <= x as real + 0.5
        && centre - 0.5 <= r.vertices[i].position.y <= centre + 0.5
        && y as real - 0.5 <= r.vertices[i].position.z <= y as real + 0.5
  {
    var r := ProduceVerts(tile, x, y, rotation, selX, selY, model, innerCorner);
    var table := GetModel(model, innerCorner);
    forall i | 0 <= i < |r.vertices|
      ensures InUnitCube(RotateVertex(rotation, table.vertices[i]).position)
    {
      assert InUnitCube(table.vertices[i].position);
    }
  }

  /** The two passes over a chunk: the grass pass takes Floor and Corner
      tiles, the wall pass every tile that is not Floor. */
  datatype Pass = GrassPass | WallPass

  predicate InPass(p: Pass, m: Model)
  {
    match p
    case GrassPass => m == Floor || m == Corner
    case WallPass => m != Floor
  }

  /** The slots from `n` on that a pass takes, in enumeration order. */
  function PassSlots(c: Chunk, p: Pass, n: nat): (r: seq<nat>)
    requires n <= TileCount
    ensures forall k :: 0 <= k < |r| ==> n <= r[k] < TileCount && InPass(p, c.tiles[r[k]].model)
    ensures forall j :: n <= j < TileCount && InPass(p, c.tiles[j].model) ==> j in r
    ensures forall k, l :: 0 <= k < l < |r| ==> r[k] < r[l]
    decreases TileCount - n
  {
    if n == TileCount then []
    else
      var rest := PassSlots(c, p, n + 1);
      if InPass(p, c.tiles[n].model) then [n] + rest else rest
  }

  /** The push a pass makes for slot `n`: the grass pass pushes Floor
      geometry with the grass texture, the wall pass the tile's own model
      with the wall texture; both keep the tile's rotation. */
  function PassOp(c: Chunk, p: Pass, n: nat, selX: int, selY: int, grass: Texture, wall: Texture,
                  innerCorner: Mesh): (r: Op)
    requires n < TileCount && WellFormed(innerCorner)
    ensures r.texture == (if p == GrassPass then grass else wall)
    ensures var table := GetModel(if p == GrassPass then Floor else c.tiles[n].model, innerCorner);
      r.mesh.indices == table.indices && |r.mesh.vertices| == |table.vertices|
    ensures SelfContained(r)
  {
    var t := c.tiles[n];
    match p
    case GrassPass => Op(ProduceVerts(t, WorldX(c, n), WorldY(c, n), t.rotation, selX, selY, Floor, innerCorner), grass)
    case WallPass => Op(ProduceVerts(t, WorldX(c, n), WorldY(c, n), t.rotation, selX, selY, t.model, innerCorner), wall)
  }

  function PassOps(c: Chunk, p: Pass, selX: int, selY: int, grass: Texture, wall: Texture,
                   innerCorner: Mesh): (r: seq<Op>)
    requires WellFormed(innerCorner)
    ensures forall k :: 0 <= k < |r| ==> SelfContained(r[k])
    ensures forall k :: 0 <= k < |r| ==> r[k].texture == (if p == GrassPass then grass else wall)
    ensures var slots := PassSlots(c, p, 0);
      && |r| == |slots|
      && forall k :: 0 <= k < |r| ==>
           var t := c.tiles[slots[k]];
           r[k].mesh == ProduceVerts(t, WorldX(c, slots[k]), WorldY(c, slots[k]), t.rotation, selX, selY,
                                     if p == GrassPass then Floor else t.model, innerCorner)
  {
    var slots := PassSlots(c, p, 0);
    seq(|slots|, k requires 0 <= k < |slots| => PassOp(c, p, slots[k], selX, selY, grass, wall, innerCorner))
  }

  /** Everything one chunk pushes: its grass pass, then its wall pass. */
  function ChunkOps(c: Chunk, selX: int, selY: int, grass: Texture, wall: Texture, innerCorner: Mesh): (r: seq<Op>)
    requires WellFormed(innerCorner)
    ensures var g := |PassSlots(c, GrassPass, 0)|;
      && |r| == g + |PassSlots(c, WallPass, 0)|
      && forall k :: 0 <= k < |r| ==> r[k].texture == (if k < g then grass else wall)
    ensures forall k :: 0 <= k < |r| ==> SelfContained(r[k])
  {
    PassOps(c, GrassPass, selX, selY, grass, wall, innerCorner)
      + PassOps(c, WallPass, selX, selY, grass, wall, innerCorner)
  }

  /** Everything a tick pushes, chunk by chunk in map order. */
  function FrameOps(chunks: Map, selX: int, selY: int, grass: Texture, wall: Texture, innerCorner: Mesh): (r: seq<Op>)
    requires WellFormed(innerCorner)
    ensures forall k :: 0 <= k < |r| ==> SelfContained(r[k])
    decreases |chunks|
  {
    if |chunks| == 0 then []
    else ChunkOps(chunks[0], selX, selY, grass, wall, innerCorner)
           + FrameOps(chunks[1..], selX, selY, grass, wall, innerCorner)
  }

  /** Each chunk switches texture at most twice, so a tick's pushes form
      at most two runs per chunk. */
  lemma {:induction false} FrameRunBound(chunks: Map, selX: int, selY: int, grass: Texture, wall: Texture, innerCorner: Mesh)
    requires WellFormed(innerCorner)
    ensures RunCount(FrameOps(chunks, selX, selY, grass, wall, innerCorner)) <= 2 * |chunks|
    decreases |chunks|
  {
    if |chunks| > 0 {
      var g := PassOps(chunks[0], GrassPass, selX, selY, grass, wall, innerCorner);
      var w := PassOps(chunks[0], WallPass, selX, selY, grass, wall, innerCorner);
      var rest := FrameOps(chunks[1..], selX, selY, grass, wall, innerCorner);
      RunCountUniform(g, grass);
      RunCountUniform(w, wall);
      RunCountConcat(g, w);
      RunCountConcat(g + w, rest);
      FrameRunBound(chunks[1..], selX, selY, grass, wall, innerCorner);
    }
  }

  /** Every tile of the chunk is flat floor. */
  predicate AllFloor(c: Chunk)
  {
    forall n :: 0 <= n < TileCount ==> c.tiles[n].model == Floor
  }

  /** A pass that takes every slot from `n` on takes all of them. */
  lemma {:induction false} PassSlotsFull(c: Chunk, p: Pass, n: nat)
    requires n <= TileCount
    requires forall j :: n <= j < TileCount ==> InPass(p, c.tiles[j].model)
    ensures |PassSlots(c, p, n)| == TileCount - n
    decreases TileCount - n
  {
    if n < TileCount {
      PassSlotsFull(c, p, n + 1);
    }
  }

  /** A pass that takes no slot from `n` on takes none. */
  lemma {:induction false} PassSlotsEmpty(c: Chunk, p: Pass, n: nat)
    requires n <= TileCount
    requires forall j :: n <= j < TileCount ==> !InPass(p, c.tiles[j].model)
    ensures PassSlots(c, p, n) == []
    decreases TileCount - n
  {
    if n < TileCount {
      PassSlotsEmpty(c, p, n + 1);
    }
  }

  /** On a flat floor chunk the grass pass takes every slot and the wall
      pass none. */
  lemma FloorChunkSlots(c: Chunk)
    requires AllFloor(c)
    ensures |PassSlots(c, GrassPass, 0)| == TileCount && PassSlots(c, WallPass, 0) == []
  {
    PassSlotsEmpty(c, WallPass, 0);
    PassSlotsFull(c, GrassPass, 0);
  }

  /** A flat floor chunk pushes one floor quad per tile, all with the
      grass texture, and nothing in its wall pass. */
  lemma FloorChunkOps(c: Chunk, selX: int, selY: int, grass: Texture, wall: Texture, innerCorner: Mesh)
    requires WellFormed(innerCorner) && AllFloor(c)
    ensures var r := ChunkOps(c, selX, selY, grass, wall, innerCorner);
      && |r| == TileCount
      && TotalVertices(r) == 4 * TileCount && TotalIndices(r) == 6 * TileCount
      && AllBound(r, grass)
  {
    var r := ChunkOps(c, selX, selY, grass, wall, innerCorner);
    FloorChunkSlots(c);
    Models.FloorTable();
    forall k | 0 <= k < |r|
      ensures |r[k].mesh.vertices| == 4 && |r[k].mesh.indices| == 6
    {
      assert r[k] == PassOp(c, GrassPass, PassSlots(c, GrassPass, 0)[k], selX, selY, grass, wall, innerCorner);
    }
    TotalsUniform(r, 4, 6);
  }

  /** When every chunk pushes under one texture, so does the frame. */
  lemma {:induction false} FrameOpsBound(chunks: Map, selX: int, selY: int, grass: Texture, wall: Texture,
                                         innerCorner: Mesh, t: Texture)
    requires WellFormed(innerCorner)
    requires forall j :: 0 <= j < |chunks| ==> AllBound(ChunkOps(chunks[j], selX, selY, grass, wall, innerCorner), t)
    ensures AllBound(FrameOps(chunks, selX, selY, grass, wall, innerCorner), t)
    decreases |chunks|
  {
    if |chunks| > 0 {
      var head := ChunkOps(chunks[0], selX, selY, grass, wall, innerCorner);
      var rest := FrameOps(chunks[1..], selX, selY, grass, wall, innerCorner);
      assert FrameOps(chunks, selX, selY, grass, wall, innerCorner) == head + rest;
      FrameOpsBound(chunks[1..], selX, selY, grass, wall, innerCorner, t);
      BoundConcat(head, rest, t);
    }
  }

  /** Everything a tick pushes is the chunks' pushes, one chunk after
      another. */
  lemma {:induction false} FrameOpsConcat(chunks: Map, selX: int, selY: int, grass: Texture, wall: Texture,
                                          innerCorner: Mesh)
    requires WellFormed(innerCorner)
    ensures FrameOps(chunks, selX, selY, grass, wall, innerCorner)
         == Concat(seq(|chunks|, j requires 0 <= j < |chunks| => ChunkOps(chunks[j], selX, selY, grass, wall, innerCorner)))
    decreases |chunks|
  {
    var parts := seq(|chunks|, j requires 0 <= j < |chunks| => ChunkOps(chunks[j], selX, selY, grass, wall, innerCorner));
    if |chunks| > 0 {
      FrameOpsConcat(chunks[1..], selX, selY, grass, wall, innerCorner);
      assert parts[1..] == seq(|chunks[1..]|, j requires 0 <= j < |chunks[1..]| =>
                                 ChunkOps(chunks[1..][j], selX, selY, grass, wall, innerCorner));
    }
  }

  /** The 16-bit index range holds fifteen flat floor chunks and no more:
      with fifteen or fewer every push fits, with sixteen or more the
      grass pass faults. */
  lemma FloorFrameCapacity(chunks: Map, selX: int, selY: int, grass: Texture, wall: Texture, innerCorner: Mesh)
    requires WellFormed(innerCorner)
    requires forall j :: 0 <= j < |chunks| ==> AllFloor(chunks[j])
    ensures PushAll(New(), FrameOps(chunks, selX, selY, grass, wall, innerCorner)).Ok? <==> |chunks| <= 15
  {
    var ops := FrameOps(chunks, selX, selY, grass, wall, innerCorner);
    FloorFrameTotals(chunks, selX, selY, grass, wall, innerCorner);
    FloorFrameGrass(chunks, selX, selY, grass, wall, innerCorner);
    if |chunks| <= 15 {
      PushAllFits(New(), ops);
    } else {
      PushAllOverflowsRun(New(), ops, grass.id);
    }
  }

  /** A map of flat floor chunks pushes 4096 vertices and 6144 indices per
      chunk. */
  lemma FloorFrameTotals(chunks: Map, selX: int, selY: int, grass: Texture, wall: Texture, innerCorner: Mesh)
    requires WellFormed(innerCorner)
    requires forall j :: 0 <= j < |chunks| ==> AllFloor(chunks[j])
    ensures var ops := FrameOps(chunks, selX, selY, grass, wall, innerCorner);
      TotalVertices(ops) == 4096 * |chunks| && TotalIndices(ops) == 6144 * |chunks|
  {
    var parts := seq(|chunks|, j requires 0 <= j < |chunks| => ChunkOps(chunks[j], selX, selY, grass, wall, innerCorner));
    forall j | 0 <= j < |parts|
      ensures TotalVertices(parts[j]) == 4096 && TotalIndices(parts[j]) == 6144
    {
      FloorChunkOps(chunks[j], selX, selY, grass, wall, innerCorner);
    }
    FrameOpsConcat(chunks, selX, selY, grass, wall, innerCorner);
    ConcatTotals(parts, 4096, 6144);
  }

  /** A map of flat floor chunks pushes under the grass texture only. */
  lemma FloorFrameGrass(chunks: Map, selX: int, selY: int, grass: Texture, wall: Texture, innerCorner: Mesh)
    requires WellFormed(innerCorner)
    requires forall j :: 0 <= j < |chunks| ==> AllFloor(chunks[j])
    ensures AllBound(FrameOps(chunks, selX, selY, grass, wall, innerCorner), grass)
  {
    forall j | 0 <= j < |chunks|
      ensures AllBound(ChunkOps(chunks[j], selX, selY, grass, wall, innerCorner), grass)
    {
      FloorChunkOps(chunks[j], selX, selY, grass, wall, innerCorner);
    }
    FrameOpsBound(chunks, selX, selY, grass, wall, innerCorner, grass);
  }

  /** `Scene::tick`: the edits, then the geometry of every chunk pushed
      into a drained Spritebatch, then the batches handed out. A push that
      overflows the 16-bit batch is a fault. */
  function Tick(s: Scene, innerCorner: Mesh): (r: Result<Frame, Fault>)
    requires WellFormed(innerCorner)
    ensures var s1 := ApplyIntents(s).0;
      r.Ok? <==> PushAll(New(), FrameOps(s1.chunks, s1.selectedX, s1.selectedY, s1.grass, s1.wall, innerCorner)).Ok?
    ensures r.Ok? ==> r.value.scene == ApplyIntents(s).0 && r.value.saved == s.intents.save
    ensures r.Ok? ==>
      var s1 := r.value.scene;
      r.value.batches == Group(FrameOps(s1.chunks, s1.selectedX, s1.selectedY, s1.grass, s1.wall, innerCorner))
    ensures r.Ok? ==> |r.value.batches| <= 2 * |s.chunks|
    ensures r.Ok? ==> forall k :: 0 <= k < |r.value.batches| ==> BatchWellFormed(r.value.batches[k])
    ensures r.Ok? ==> forall k :: 0 <= k < |r.value.batches| - 1 ==>
      r.value.batches[k].texture.id != r.value.batches[k + 1].texture.id
  {
    var (s1, saved) := ApplyIntents(s);
    var ops := FrameOps(s1.chunks, s1.selectedX, s1.selectedY, s1.grass, s1.wall, innerCorner);
    match PushAll(New(), ops)
    case Err(f) => Err(f)
    case Ok(sb) =>
      PushAllGroupsRuns(ops);
      FrameRunBound(s1.chunks, s1.selectedX, s1.selectedY, s1.grass, s1.wall, innerCorner);
      Ok(Frame(s1, saved, GetBuffer(sb).0))
  }

  /** Edits that do not swap a model keep a flat floor map flat floor. */
  lemma IntentsKeepFloor(s: Scene)
    requires !s.intents.swapModel
    requires forall j :: 0 <= j < |s.chunks| ==> AllFloor(s.chunks[j])
    ensures var r := ApplyIntents(s).0;
      |r.chunks| == |s.chunks| && forall j :: 0 <= j < |r.chunks| ==> AllFloor(r.chunks[j])
  {
    var s1 := ApplyIntents(s).0;
    var m := s.chunks;
    IntentsEditSelectedTile(s);
    match GetTile(m, s1.selectedX, s1.selectedY)
    case None =>
    case Some(t) =>
      var cc := XyToChunkCoord(s1.selectedX, s1.selectedY);
      assert AllFloor(m[FindChunk(m, cc.chunkX, cc.chunkY).value]);
      SetTileFrame(m, s1.selectedX, s1.selectedY, EditTile(t, s.intents));
      forall j | 0 <= j < |s1.chunks|
        ensures AllFloor(s1.chunks[j])
      {
        assert AllFloor(m[j]);
      }
  }

  /** A tick over a map of flat floor chunks whose intents do not swap a
      model succeeds exactly when the map has at most fifteen chunks. */
  lemma FloorMapTick(s: Scene, innerCorner: Mesh)
    requires WellFormed(innerCorner)
    requires !s.intents.swapModel
    requires forall j :: 0 <= j < |s.chunks| ==> AllFloor(s.chunks[j])
    ensures Tick(s, innerCorner).Ok? <==> |s.chunks| <= 15
  {
    var s1 := ApplyIntents(s).0;
    IntentsKeepFloor(s);
    FloorFrameCapacity(s1.chunks, s1.selectedX, s1.selectedY, s1.grass, s1.wall, innerCorner);
  }

  /** Scenario: one chunk at (0, 0) of flat floor, tile (5, 5) selected and
      raised in two edit steps; that tile ends at height 2, every other tile is
      as before. */
  lemma RaiseTwiceScenario(grass: Texture, wall: Texture)
    ensures var raise := NoIntents.(raise := true);
      var s0 := Scene(raise, 5, 5, [NewChunk(0, 0)], grass, wall);
      var s1 := ApplyIntents(s0).0;
      var s2 := ApplyIntents(s1.(intents := raise)).0;
      && GetTile(s2.chunks, 5, 5) == Some(Tile(2, Floor, Zero))
      && forall x, y :: (x, y) != (5, 5) ==> GetTile(s2.chunks, x, y) == GetTile(s0.chunks, x, y)
  {
    var raise := NoIntents.(raise := true);
    var s0 := Scene(raise, 5, 5, [NewChunk(0, 0)], grass, wall);
    var s1 := ApplyIntents(s0).0;
    var s1' := s1.(intents := raise);
    var s2 := ApplyIntents(s1').0;
    ChunkCoordUnique(5, 5, ChunkCoord(0, 0, 5, 5));
    assert GetTile(s0.chunks, 5, 5) == Some(DefaultTile);
    IntentsEditSelectedTile(s0);
    GetAfterSet(s0.chunks, 5, 5, Tile(1, Floor, Zero));
    IntentsEditSelectedTile(s1');
    GetAfterSet(s1.chunks, 5, 5, Tile(2, Floor, Zero));
  }

  /** Scenario: raising with (-1, -1) selected when only chunk (0, 0)
      exists is a lookup miss and changes nothing. */
  lemma RaiseMissScenario(grass: Texture, wall: Texture)
    ensures var s0 := Scene(NoIntents.(raise := true), -1, -1, [NewChunk(0, 0)], grass, wall);
      ApplyIntents(s0).0.chunks == s0.chunks
  {
    var s0 := Scene(NoIntents.(raise := true), -1, -1, [NewChunk(0, 0)], grass, wall);
    ChunkCoordUnique(-1, -1, ChunkCoord(-1, -1, 31, 31));
    IntentsEditSelectedTile(s0);
  }
}

=== FILE: geometry.dfy ===
/** The vertex and index types shared by the model tables, the tile
    geometry and the Spritebatch (the `Vertex` record of the renderer and
    its 16-bit index format). */
module Geometry {

  /** Largest value of a `u16`; index buffers use the 16-bit index format. */
  const U16_MAX: int := 0xFFFF

  /** Largest value of a `u32`, the type of an index buffer's index count. */
  const U32_MAX: int := 0xFFFF_FFFF

  /** A vertex index as stored in an index buffer. */
  type U16 = i: int | 0 <= i <= 0xFFFF

  /** A position. Positions in the source are `f32`; every value the model
      works with is dyadic or an integer, so `real` is exact here. */
  datatype Vec3 = Vec3(x: real, y: real, z: real)

  function Add(a: Vec3, b: Vec3): Vec3
  {
    Vec3(a.x + b.x, a.y + b.y, a.z + b.z)
  }

  /** A vertex: a position and a texture coordinate pair. */
  datatype Vertex = Vertex(position: Vec3, texCoords: (real, real))

  /** A vertex table together with the index list that triangulates it. */
  datatype Mesh = Mesh(vertices: seq<Vertex>, indices: seq<U16>)

  /** Every index names one of the first `vertexCount` vertices. */
  predicate IndicesInBounds(vertexCount: int, indices: seq<int>)
  {
    forall i :: 0 <= i < |indices| ==> 0 <= indices[i] < vertexCount
  }

  /** A triangle list over its own vertex table: every index is in bounds
      and the index count is a whole number of triangles. */
  predicate WellFormed(m: Mesh)
  {
    IndicesInBounds(|m.vertices|, m.indices) && |m.indices| % 3 == 0
  }

  /** The cube of side 1 centred on the local origin. */
  predicate InUnitCube(p: Vec3)
  {
    -0.5 <= p.x <= 0.5 && -0.5 <= p.y <= 0.5 && -0.5 <= p.z <= 0.5
  }

  /** Every vertex of the table lies in the unit cube around the origin. */
  predicate InsideUnitCube(vs: seq<Vertex>)
  {
    forall i :: 0 <= i < |vs| ==> InUnitCube(vs[i].position)
  }
}

=== FILE: models.dfy ===
/** The constant geometry tables of the tile models (`models.rs`): each
    table is written in a unit cube and shifted by the model's origin so
    that the cube is centred on (0, 0, 0). */
module Models {
  import opened Geometry

  /** The origin every table subtracts; the wall, corner and floor tables
      each declare this same value. */
  const Origin: Vec3 := Vec3(0.5, 0.5, 0.5)

  /** The `offset!` macro: the point (a, b, c) of the unit cube, expressed
      relative to `origin`. */
  function Offset(origin: Vec3, a: real, b: real, c: real): (p: Vec3)
    ensures Add(p, origin) == Vec3(a, b, c)
  {
    Vec3(a - origin.x, b - origin.y, c - origin.z)
  }

  /** A table entry: the offset position of (a, b, c) with texture
      coordinates (u, v). */
  function At(a: real, b: real, c: real, u: real, v: real): Vertex
  {
    Vertex(Offset(Origin, a, b, c), (u, v))
  }

  /** A ramp: four points down the x = 0 side, four down the x = 1 side. */
  const Wall: Mesh := Mesh(
    [ At(0.0, 1.0, 0.0, 0.0, 0.0),
      At(0.0, 0.875, 0.25, 0.0, 0.125),
      At(0.0, 0.125, 0.75, 0.0, 0.875),
      At(0.0, 0.0, 1.0, 0.0, 1.0),
      At(1.0, 1.0, 0.0, 1.0, 0.0),
      At(1.0, 0.875, 0.25, 1.0, 0.125),
      At(1.0, 0.125, 0.75, 1.0, 0.875),
      At(1.0, 0.0, 1.0, 1.0, 1.0) ],
    [ 0, 1, 4,  4, 1, 5,
      1, 2, 5,  5, 2, 6,
      2, 3, 6,  6, 3, 7 ])

  /** An outer corner: a top point, a left and a back slope, and the two
      points each of the corner's top and bottom edge. */
  const Corner: Mesh := Mesh(
    [ At(0.0, 1.0, 0.0, 0.5, 0.0),
      At(0.0, 0.875, 0.25, 0.375, 0.125),
      At(0.0, 0.125, 0.75, 0.125, 0.875),
      At(0.0, 0.0, 1.0, 0.0, 1.0),
      At(0.25, 0.875, 0.0, 0.625, 0.125),
      At(0.75, 0.125, 0.0, 0.875, 0.875),
      At(1.0, 0.0, 0.0, 1.0, 1.0),
      At(0.5, 0.125, 0.625, 0.4, 0.875),
      At(0.625, 0.125, 0.5, 0.6, 0.875),
      At(0.5, 0.0, 0.875, 0.35, 1.0),
      At(0.875, 0.0, 0.5, 0.65, 1.0) ],
    [ 0, 1, 4,
      1, 2, 7,
      4, 8, 5,
      1, 7, 4,  4, 7, 8,
      2, 3, 7,  7, 3, 9,
      7, 9, 8,  8, 9, 10,
      8, 10, 5,  5, 10, 6 ])

  /** A flat quad on the bottom face of the cube. */
  const Floor: Mesh := Mesh(
    [ At(0.0, 0.0, 0.0, 0.0, 0.0),
      At(0.0, 0.0, 1.0, 0.0, 1.0),
      At(1.0, 0.0, 0.0, 1.0, 0.0),
      At(1.0, 0.0, 1.0, 1.0, 1.0) ],
    [ 0, 1, 2,  2, 1, 3 ])

  /** The origin offset moves the unit cube [0, 1]^3 onto the cube centred
      on the origin, and back. */
  lemma OffsetCentresUnitCube(a: real, b: real, c: real)
    ensures InUnitCube(Offset(Origin, a, b, c)) <==> (0.0 <= a <= 1.0 && 0.0 <= b <= 1.0 && 0.0 <= c <= 1.0)
  {
  }

  /** The wall table: 8 vertices, 6 triangles over them, inside the cube. */
  lemma WallTable()
    ensures |Wall.vertices| == 8 && |Wall.indices| == 18
    ensures WellFormed(Wall) && InsideUnitCube(Wall.vertices)
  {
  }

  /** The corner table: 11 vertices, 11 triangles over them, inside the cube. */
  lemma CornerTable()
    ensures |Corner.vertices| == 11 && |Corner.indices| == 33
    ensures WellFormed(Corner) && InsideUnitCube(Corner.vertices)
  {
  }

  /** The floor table: 4 vertices, 2 triangles over them, inside the cube,
      all on its bottom face. */
  lemma FloorTable()
    ensures |Floor.vertices| == 4 && |Floor.indices| == 6
    ensures WellFormed(Floor) && InsideUnitCube(Floor.vertices)
    ensures forall i :: 0 <= i < |Floor.vertices| ==> Floor.vertices[i].position.y == -0.5
  {
  }
}

=== FILE: tiles.dfy ===
/** The tile types of the editor (`game/mod.rs`): the model shape, the
    quarter-turn rotation and the tile record, with their successor
    functions and the vertex rotation. */
module Tiles {
  import opened Geometry
  import Models

  /** An unsigned 8-bit tile height. */
  type U8 = h: int | 0 <= h <= 255

  /** The shape of a tile. */
  datatype Model = Wall | Corner | InnerCorner | Floor

  /** Counter-clockwise rotation about the vertical axis. */
  datatype TileRotation = Zero | Quarter | Half | ThreeQuarters

  /** A map cell. */
  datatype Tile = Tile(height: U8, model: Model, rotation: TileRotation)

  /** A model's place on the swap ring Wall, Floor, Corner, InnerCorner. */
  function RingIndex(m: Model): nat
  {
    match m
    case Wall => 0
    case Floor => 1
    case Corner => 2
    case InnerCorner => 3
  }

  /** The number of counter-clockwise quarter turns a rotation makes. */
  function QuarterTurns(r: TileRotation): nat
  {
    match r
    case Zero => 0
    case Quarter => 1
    case Half => 2
    case ThreeQuarters => 3
  }

  /** `Model::swap_model`: Wall, Floor, Corner, InnerCorner, then Wall
      again; one step forward on the ring, modulo 4. */
  function SwapModel(m: Model): (r: Model)
    ensures RingIndex(r) == (RingIndex(m) + 1) % 4
  {
    match m
    case Wall => Floor
    case Floor => Corner
    case Corner => InnerCorner
    case InnerCorner => Wall
  }

  /** `TileRotation::rotate_next`: Zero, Quarter, Half, ThreeQuarters,
      then Zero; one more quarter turn, modulo a full turn. */
  function RotateNext(r: TileRotation): (n: TileRotation)
    ensures QuarterTurns(n) == (QuarterTurns(r) + 1) % 4
  {
    match r
    case Zero => Quarter
    case Quarter => Half
    case Half => ThreeQuarters
    case ThreeQuarters => Zero
  }

  /** `Model::get_model`: the model's geometry table. The inner-corner
      table (`models::inner_corner`) is not modelled and is supplied by the
      caller. */
  function GetModel(m: Model, innerCorner: Mesh): (r: Mesh)
    requires WellFormed(innerCorner)
    ensures WellFormed(r)
    ensures m != InnerCorner ==> InsideUnitCube(r.vertices)
  {
    Models.WallTable();
    Models.CornerTable();
    Models.FloorTable();
    match m
    case Wall => Models.Wall
    case Floor => Models.Floor
    case Corner => Models.Corner
    case InnerCorner => innerCorner
  }

  /** One counter-clockwise quarter turn: (x, y, z) becomes (z, y, -x). */
  function RotateQuarter(v: Vertex): Vertex
  {
    Vertex(Vec3(v.position.z, v.position.y, -v.position.x), v.texCoords)
  }

  /** `TileRotation::rotate_vertice`: the quarter turn applied zero to
      three times. */
  function RotateVertex(r: TileRotation, v: Vertex): (w: Vertex)
    ensures w.position.y == v.position.y && w.texCoords == v.texCoords
    ensures InUnitCube(v.position) ==> InUnitCube(w.position)
  {
    match r
    case Zero => v
    case Quarter => RotateQuarter(v)
    case Half => RotateQuarter(RotateQuarter(v))
    case ThreeQuarters => RotateQuarter(RotateQuarter(RotateQuarter(v)))
  }

  /** `k` quarter turns. */
  function Turns(k: nat, v: Vertex): Vertex
    decreases k
  {
    if k == 0 then v else RotateQuarter(Turns(k - 1, v))
  }

  /** A rotation turns a vertex by exactly its number of quarter turns. */
  lemma RotateVertexIsTurns(r: TileRotation, v: Vertex)
    ensures RotateVertex(r, v) == Turns(QuarterTurns(r), v)
  {
    assert Turns(1, v) == RotateQuarter(v) by { assert Turns(0, v) == v; }
    assert Turns(2, v) == RotateQuarter(RotateQuarter(v));
    assert Turns(3, v) == RotateQuarter(RotateQuarter(RotateQuarter(v)));
  }

  /** `swap_model` is a single cycle through all four models. */
  lemma SwapModelCycle(m: Model)
    ensures SwapModel(SwapModel(SwapModel(SwapModel(m)))) == m
    ensures {m, SwapModel(m), SwapModel(SwapModel(m)), SwapModel(SwapModel(SwapModel(m)))}
         == {Wall, Corner, InnerCorner, Floor}
  {
  }

  /** `rotate_next` is a single cycle through all four rotations. */
  lemma RotateNextCycle(r: TileRotation)
    ensures RotateNext(RotateNext(RotateNext(RotateNext(r)))) == r
    ensures {r, RotateNext(r), RotateNext(RotateNext(r)), RotateNext(RotateNext(RotateNext(r)))}
         == {Zero, Quarter, Half, ThreeQuarters}
  {
  }

  /** Four quarter turns are the identity. */
  lemma QuarterTurnOrderFour(v: Vertex)
    ensures RotateQuarter(RotateQuarter(RotateQuarter(RotateQuarter(v)))) == v
  {
  }

  /** Advancing a tile's rotation turns its vertices one more quarter. */
  lemma RotateNextTurnsQuarter(r: TileRotation, v: Vertex)
    ensures RotateVertex(RotateNext(r), v) == RotateQuarter(RotateVertex(r, v))
  {
    if r == ThreeQuarters {
      QuarterTurnOrderFour(v);
    }
  }

  /** The four rotations are told apart by where they send (1, 0, 0). */
  lemma RotationsDistinct(r1: TileRotation, r2: TileRotation)
    ensures var probe := Vertex(Vec3(1.0, 0.0, 0.0), (0.0, 0.0));
      RotateVertex(r1, probe) == RotateVertex(r2, probe) <==> r1 == r2
  {
  }
}

=== FILE: wrappers.dfy ===
/** Failure-compatible wrappers shared by the model: an optional value and
    a success-or-fault result. */
module Wrappers {

  /** An optional value; the model of Rust's `Option`. */
  datatype Option<+T> = None | Some(value: T)

  /** The outcome of an operation that may stop on a fatal assertion. */
  datatype Result<+T, +E> = Ok(value: T) | Err(error: E)
}
